=== FILE: README.md ===
# Site interaction state machines in Dafny

`script.js` drives a marketing site: almost all of it hands DOM elements to an
animation library. Five small pieces of it keep discrete state of their own,
and this project models each one as an immutable state record with pure
transition functions. It then proves what the code guarantees about them.

- **Testimonial carousel** (`TestimonialSlider`, slider.dfy). This covers the
  slide index and its wrap-around in `nextSlide`/`prevSlide`, and the
  exclusive `active` marking done by `showSlide`. It also covers the button,
  dot, hover and timer events. Timers are abstract. `setInterval` hands out a
  fresh handle, which stays in a set of live intervals until it is cleared.
  The carousel remembers only one handle, `autoPlayInterval`. Each
  `setTimeout(startAutoPlay, 3000)` is a pending restart.
- **Particle trail** (`ParticleTrail`, particles.dfy). This is the bounded
  FIFO `particles` with `maxParticles = 15`. It also tracks which particles
  are still attached to the page.
- **Portfolio filter** (`PortfolioFilter`, portfolio.dfy). When a button is
  clicked, only that button becomes active, and each item is sent either to
  the full look (opacity 1, scale 1) or to the dimmed look (opacity 0.3,
  scale 0.8).
- **Mobile menu** (`MobileNav`, mobile_nav.dfy). This covers the `active`
  classes of the toggle button and the menu, and the body's `overflow`. A
  click is dispatched in bubbling order: the toggle or link listener runs
  first, then the document listener.
- **Typewriter** (`Typewriter`, typewriter.dfy). This is the tick-driven
  `typeChar` loop, which builds the text one prefix at a time, followed by the
  delayed removal of the cursor.

Some helpers are shared. `Arith` holds JavaScript's truncating `%`, which
differs from Dafny's Euclidean one, and `Min`. `Flags` models a list of
elements carrying the `active` class. `Optional` models `null`/`undefined`.

Several behaviours come straight from the code, and the model keeps them:

- `startAutoPlay` overwrites the stored handle without clearing the interval
  it named. Two restarts that fire without a stop in between therefore leave
  an interval that nothing can clear any more. This can happen after two
  quick clicks, or after a `mouseleave` while autoplay is already running.
  `DoubleClickRunsTwoIntervals` and `MouseLeaveOrphans` show the two
  routes, and `OrphanLivesForever` shows that the orphan is never cleared.
- The carousel is not kept paused while the pointer hovers over it. A click
  during the hover schedules a restart, and when that restart fires autoplay
  runs although the pointer never left (`ClickWhileHoveredResumesAutoPlay`).
  The hover listeners suggest that autoplay pauses during a hover, and the
  restart delay suggests that a click holds off the next automatic advance.
  The code guarantees neither, so the model follows the code.
- `showSlide` throws a TypeError when `dots[index]` (or `slides[index]`) is
  missing. It throws after all classes have been cleared, so the click
  handler never reaches `stopAutoPlay`. With no dots at all, initialisation
  stops before `startAutoPlay` and before the hover listeners are attached.
  The exception also leaves the page-load handler (script.js:19), so the
  initialisers after it never run: among them the mobile menu
  (script.js:25) and the 500 ms timer that starts the particle trail
  (script.js:28-34). Those two machines are then never wired.
  The "exactly one slide and dot active" property therefore needs at least as
  many dots as slides, and the run-level form needs exactly as many.
- `getAttribute` returns `null` for a missing attribute, and
  `null === null` holds. A filter button without `data-filter` therefore
  shows exactly the items without `data-category`.
- A nav link is modelled as sitting inside the menu. A link outside it would
  behave the same: its own listener closes the menu, and the document
  listener then closes it again, so `Click(s, NavLink)` covers both cases.

## Model

| member | source | states |
|---|---|---|
| Arith.JsRemIsTruncatedRemainder | script.js:745 | the remainder of JavaScript's `%` is smaller than the divisor in magnitude, is zero or has the dividend's sign, and differs from the dividend by a multiple of the divisor |
| Flags.Cleared | script.js:723-729 | removing `active` from every element of a list leaves the length unchanged and no element active |
| Flags.Mark | script.js:729-733 | clearing every element and then adding `active` at `i` leaves exactly element `i` active |
| TestimonialSlider.NextIndex | script.js:744-747 | `nextSlide` lands in `[0, n)`, and from an index in range it moves to the next slide, wrapping from `n - 1` to 0 |
| TestimonialSlider.PrevIndex | script.js:749-752 | `prevSlide` lands in `[0, n)`, and from an index in range it moves to the previous slide, wrapping from 0 to `n - 1` |
| TestimonialSlider.PrevUndoesNext | script.js:744-752 | `prevSlide` after `nextSlide` returns to every starting index in `[0, n)` |
| TestimonialSlider.NextUndoesPrev | script.js:744-752 | `nextSlide` after `prevSlide` returns to every starting index in `[0, n)` |
| TestimonialSlider.Advance | script.js:744-747 | any positive number of `nextSlide` calls lands in `[0, n)` |
| TestimonialSlider.AdvanceIsRotation | script.js:744-747 | `k` calls of `nextSlide` from `i` reach `(i + k) mod n` |
| TestimonialSlider.AdvanceFullCycle | script.js:744-747 | `n` calls of `nextSlide` over `n` slides return to the starting index |
| TestimonialSlider.ShowSlide | script.js:721-742 | `showSlide(i)` completes iff slide `i` and dot `i` exist; when slide `i` exists, exactly slide `i` and dot `i` are active; otherwise nothing is active |
| TestimonialSlider.ShowSlideActivatesOne | script.js:721-734 | with `dots.length >= slides.length`, `showSlide(i)` of an existing slide completes with exactly slide `i` and dot `i` active |
| TestimonialSlider.StartAutoPlay | script.js:754-756 | a fresh interval becomes live and becomes the stored handle; the previously stored interval stays live; nothing else changes |
| TestimonialSlider.StopAutoPlay | script.js:758-760 | exactly the stored interval is cleared, and every other live interval keeps running |
| TestimonialSlider.Show | script.js:777-778 | setting `currentSlide` and showing it changes no timer; when the slide exists, exactly it and its dot (if any) are active; when it does not, no slide and no dot is active |
| TestimonialSlider.ManualMove | script.js:763-782 | a button or dot click moves to the index, clears the stored interval and schedules one restart, but only when `showSlide` did not throw |
| TestimonialSlider.Init | script.js:716-793 | no slides means no carousel; otherwise slide 0 is the only active slide, and one interval runs unless there are no dots, in which case no timer starts and hover is not wired |
| TestimonialSlider.Step | script.js:744-793 | "next" and a firing live interval move to the next index, "previous" to the previous one, a click on an existing dot to that dot's index; restarts and hover leave index and classes alone; a click whose `showSlide` completes clears the stored interval and schedules exactly one restart, and a click where it throws touches no timer; a restart fires once, consuming one pending restart and starting a fresh stored interval; `mouseenter` clears the stored interval and `mouseleave` starts a fresh one without clearing the old; with no pending restart or no hover listeners those events change nothing; every event adds at most one live interval (the stored one), and never clears an interval whose handle is no longer stored |
| TestimonialSlider.StepKeepsIndexInRange | script.js:744-782 | with no more dots than slides, the index stays in `[0, n)` after every event |
| TestimonialSlider.StepKeepsDisplay | script.js:721-793 | with one dot per slide, every event leaves exactly the current slide and the current dot active |
| TestimonialSlider.RunKeepsDisplay | script.js:721-793 | with one dot per slide, every sequence of events keeps exactly the current slide and dot active |
| TestimonialSlider.TwoStartsOneStopOrphans | script.js:754-760 | after two starts and one stop, the first interval is still live and no longer stored |
| TestimonialSlider.OrphanLivesForever | script.js:754-793 | a live interval whose handle is not stored stays live through every sequence of events |
| TestimonialSlider.DoubleClickRunsTwoIntervals | script.js:763-792 | two "next" clicks whose restarts both fire leave two live intervals, and hovering clears only the second |
| TestimonialSlider.MouseLeaveOrphans | script.js:754-793 | a `mouseleave` while an interval is stored starts a second interval and leaves the first live but no longer stored |
| TestimonialSlider.ClickWhileHoveredResumesAutoPlay | script.js:775-792 | a dot click during a hover restarts autoplay without any `mouseleave` |
| ParticleTrail.CreateParticle | script.js:402-437 | the new particle goes on the page and at the end of the array; the array keeps the newest of its old entries; once it is over 15 long, the head is shifted out and leaves the page; every other particle stays on the page |
| ParticleTrail.CreateKeepsOrder | script.js:430-437 | after a spawn the array is still the newest particles in creation order |
| ParticleTrail.CreateKeepsPageInBuffer | script.js:430-437 | after a spawn every particle on the page is still in the array |
| ParticleTrail.FadeComplete | script.js:425-427 | a finished fade-out takes its particle off the page but leaves the array alone |
| ParticleTrail.CreateKeepsInv | script.js:430-437 | the array stays the `min(created, 15)` newest particles in creation order, and only those can be on the page |
| ParticleTrail.RunKeepsInv | script.js:402-437 | the same invariant holds across any interleaving of spawns and fade-outs |
| ParticleTrail.TrailIsBounded | script.js:399-437 | from the empty trail, the array and the set of particles on the page never exceed 15 |
| ParticleTrail.EvictsOldest | script.js:432-437 | once 15 particles exist, a spawn removes exactly the oldest one from the array and the page |
| PortfolioFilter.Selected | script.js:684-701 | item `i` gets the full look iff the filter is `'all'` or equals its category |
| PortfolioFilter.Click | script.js:676-702 | after a click exactly the clicked button is active, and an item is at full opacity and scale iff the filter is `'all'` or equals its category |
| PortfolioFilter.AllShowsEverything | script.js:687-693 | the `'all'` button shows every item |
| PortfolioFilter.CategoryShowsItsItems | script.js:687-701 | any other button shows exactly the set of items in its category |
| PortfolioFilter.MissingFilterMatchesMissingCategory | script.js:677-687 | a button without `data-filter` shows exactly the items without `data-category` |
| PortfolioFilter.LastClickWins | script.js:676-702 | the result depends only on the last button clicked; clicking a button twice is the same as clicking it once |
| MobileNav.ToggleMenu | script.js:147-153 | the toggle flips both classes, and afterwards overflow is `'hidden'` exactly when the menu is open |
| MobileNav.Close | script.js:157-170 | the link listener, and the document listener on an outside click, leave both classes off and overflow `''` |
| MobileNav.OnDocumentClick | script.js:165-171 | a click outside toggle and menu closes everything; a click inside either changes nothing |
| MobileNav.Click | script.js:147-171 | a toggle click is a toggle; a link or outside click closes with overflow `''`; any other click inside the menu changes nothing |
| MobileNav.ToggleTwiceRestores | script.js:147-153 | two toggles restore both classes, and the whole state when the overflow already matched the menu |
| MobileNav.ToggleKeepsMismatch | script.js:148-149 | the two classes are toggled separately, so a toggle button and menu that are out of step stay out of step |
| MobileNav.ClickKeepsSynced | script.js:147-171 | every click keeps the two classes equal and overflow `'hidden'` exactly while the menu is open |
| MobileNav.InitialSynced | script.js:147-171 | the page as it loads, menu closed with no overflow style, is in the agreement every click preserves |
| MobileNav.RunKeepsSynced | script.js:147-171 | the same agreement holds along every sequence of clicks |
| MobileNav.EndsClosed | script.js:157-170 | whatever came before, a final link or outside click leaves the menu closed and overflow `''` |
| Typewriter.TypeChar | script.js:274-285 | while characters remain, one character is appended and another call is scheduled; afterwards the text stays the same and typing stops |
| Typewriter.Start | script.js:263-287 | the emptied element shows the first character after the first call, or the cursor removal is pending at once for empty text |
| Typewriter.Tick | script.js:278 | the scheduled `typeChar` fires only while typing: it advances the index by one, capped at the text length, and keeps typing scheduled only while characters remained; once typing is over nothing changes |
| Typewriter.CursorTimeout | script.js:279-283 | the delayed callback, which exists only once typing has ended, removes the cursor and leaves the text alone; at any other time nothing changes |
| Typewriter.TicksTypePrefix | script.js:271-287 | after `k` ticks the element shows the first `min(k + 1, length of text)` characters, and characters are still scheduled exactly while `k` is below the text length |
| Typewriter.TicksFrom | script.js:274-285 | from a typing state, `k` ticks advance the index to `min(i + k, length of text)`; once typing has stopped, ticks change nothing |
| Typewriter.FinishedTextIsStable | script.js:279-284 | once the whole text is shown, nothing that fires changes it again |

## Left out

- The animation library calls (`gsap.to`, `gsap.set`, timelines, ScrollTrigger) are left out. Their effects happen inside a foreign library; the model keeps only the tween targets, as `Look`.
- DOM queries, `addEventListener` plumbing, and the early returns for missing elements are left out. Events from an element that does not exist simply never occur. The hover listeners are the one exception, because their wiring depends on whether initialisation threw, so the model tracks them.
- Timer durations (5000, 3000, 100 and 1000 ms) and the order that time imposes between timers are left out. The events are abstract and may be delivered in any order.
- Particle positions, `Math.random`, the 30% spawn chance, the 50 ms `Date.now` throttle and the viewport-width check are left out. They are random or based on the wall clock, so a spawn is just an event.
- `Typewriter.Start`: a `charAt` index counts UTF-16 code units, while here a string is a sequence of Dafny characters. The whitespace, overflow and border styles other than the cursor border are not modelled.
- The rest of `script.js` is left out. This covers the preloader, scroll and hero animations, the tilt, magnetic and ripple effects, parallax, the counter animation, smooth scrolling, the contact form's fixed-delay success alert, and the debounce helper. All of these are floating-point, purely visual, or I/O.

=== FILE: arith.dfy ===
/** Integer helpers, and the JavaScript remainder, which differs from Dafny's. */
module Arith {

  function Abs(x: int): (r: nat)
    ensures r == x || r == -x
  {
    if x < 0 then -x else x
  }

  function Min(a: nat, b: nat): (r: nat)
    ensures r <= a && r <= b && (r == a || r == b)
  {
    if a <= b then a else b
  }

  /** JavaScript's `%`: the remainder of a division truncated toward zero.
      It agrees with Dafny's Euclidean `%` on a non-negative dividend, and is
      odd in the dividend, so it takes the dividend's sign. */
  function JsRem(a: int, b: int): (r: int)
    requires b != 0
    ensures a >= 0 ==> 0 <= r < Abs(b) && r == a % Abs(b)
    ensures a < 0 ==> -(Abs(b) as int) < r <= 0 && r == -JsRem(-a, b)
    decreases if a < 0 then 1 else 0
  {
    if a >= 0 then a % Abs(b) else -((-a) % Abs(b))
  }

  /** Division theorem, with the quotient and remainder unique. */
  lemma ModUnique(x: int, q: int, r: int, n: int)
    requires n > 0 && 0 <= r < n && x == q * n + r
    ensures x % n == r && x / n == q
  {
    var d := q - x / n;
    assert x == (x / n) * n + x % n;
    assert d * n == x % n - r;
    MulAwayFromZero(d, n);
  }

  /** A non-zero multiple of `n` is at least `n` away from zero. */
  lemma MulAwayFromZero(d: int, n: int)
    requires n > 0
    ensures d >= 1 ==> d * n >= n
    ensures d <= -1 ==> d * n <= -n
  {
    assert d * n == (d - 1) * n + n;
    assert d * n == (d + 1) * n - n;
  }

  /** `JsRem` is the remainder ECMAScript defines for `%`: smaller than the
      divisor in magnitude, zero or of the dividend's sign, and differing from
      the dividend by a multiple of the divisor. */
  lemma JsRemIsTruncatedRemainder(a: int, b: int)
    requires b != 0
    ensures Abs(JsRem(a, b)) < Abs(b)
    ensures JsRem(a, b) == 0 || (JsRem(a, b) < 0 <==> a < 0)
    ensures (a - JsRem(a, b)) % Abs(b) == 0
  {
    var m := Abs(b);
    var x := if a >= 0 then a else -a;
    var q := x / m;
    assert x == q * m + x % m;
    if a >= 0 {
      ModUnique(a - JsRem(a, b), q, 0, m);
    } else {
      ModUnique(a - JsRem(a, b), -q, 0, m);
    }
  }
}

=== FILE: flags.dfy ===
/** A list of elements that each may carry the CSS class `active`, as one
    boolean per element, in document order. */
module Flags {

  /** Exactly the element at `i` is active. When `i` is outside the list, no
      element is active. */
  ghost predicate OnlyActive(flags: seq<bool>, i: int)
  {
    forall j :: 0 <= j < |flags| ==> (flags[j] <==> j == i)
  }

  ghost predicate NoneActive(flags: seq<bool>)
  {
    forall j :: 0 <= j < |flags| ==> !flags[j]
  }

  /** `list.forEach(el => el.classList.remove('active'))`. */
  function Cleared(flags: seq<bool>): (r: seq<bool>)
    ensures |r| == |flags|
    ensures NoneActive(r)
  {
    if |flags| == 0 then [] else Cleared(flags[..|flags| - 1]) + [false]
  }

  /** `list.forEach(remove 'active')` followed by `list[i].classList.add('active')`. */
  function Mark(flags: seq<bool>, i: nat): (r: seq<bool>)
    requires i < |flags|
    ensures |r| == |flags|
    ensures OnlyActive(r, i)
  {
    Cleared(flags)[i := true]
  }
}

=== FILE: mobile_nav.dfy ===
/** The mobile menu of `initMobileNavigation`: the `active` class of the
    toggle button and of the menu, and the `overflow` style of the body that
    locks page scrolling while the menu is open.

    Three listeners react to a click: the toggle's, each nav link's, and the
    document's (registered last, so it runs after the other two once the
    click bubbles up). The document listener closes the menu unless the
    click landed inside the toggle or the menu. */
module MobileNav {

  datatype Nav = Nav(toggleOn: bool, menuOn: bool, overflow: string)

  const Hidden := "hidden"

  /** Where a click lands. The nav links sit inside the menu. */
  datatype Target = ToggleButton | NavLink | InsideMenu | Outside

  /** Toggle, menu and body agree: both classes match, and scrolling is
      locked exactly while the menu is open. */
  ghost predicate Synced(s: Nav)
  {
    s.toggleOn == s.menuOn && (s.overflow == Hidden <==> s.menuOn) && (s.overflow == "" || s.overflow == Hidden)
  }

  /** The page as it loads: menu closed, no overflow style. */
  const Initial := Nav(false, false, "")

  /** The toggle's listener: `classList.toggle('active')` on the toggle and on
      the menu, each on its own, then the overflow chosen from the menu. */
  function ToggleMenu(s: Nav): (r: Nav)
    ensures r.toggleOn != s.toggleOn && r.menuOn != s.menuOn
    ensures r.overflow == Hidden <==> r.menuOn
    ensures r.overflow == "" || r.overflow == Hidden
  {
    var menuOn := !s.menuOn;
    Nav(!s.toggleOn, menuOn, if menuOn then Hidden else "")
  }

  /** The nav links' listener, and the document's on an outside click. */
  function Close(s: Nav): (r: Nav)
    ensures !r.toggleOn && !r.menuOn && r.overflow == ""
  {
    Nav(false, false, "")
  }

  /** The document's listener: `navToggle.contains(target)` or
      `navMenu.contains(target)` spares the menu. */
  function OnDocumentClick(s: Nav, t: Target): (r: Nav)
    ensures t == Outside ==> !r.menuOn && !r.toggleOn && r.overflow == ""
    ensures t != Outside ==> r == s
  {
    if t == Outside then Close(s) else s
  }

  /** One click, dispatched to the listeners in bubbling order. */
  function Click(s: Nav, t: Target): (r: Nav)
    ensures t == ToggleButton ==> r == ToggleMenu(s)
    ensures t == NavLink || t == Outside ==> r == Nav(false, false, "")
    ensures t == InsideMenu ==> r == s
  {
    match t
    case ToggleButton => OnDocumentClick(ToggleMenu(s), t)
    case NavLink => OnDocumentClick(Close(s), t)
    case InsideMenu => OnDocumentClick(s, t)
    case Outside => OnDocumentClick(s, t)
  }

  function Run(s: Nav, ts: seq<Target>): (r: Nav)
    ensures |ts| > 0 && (ts[|ts| - 1] == NavLink || ts[|ts| - 1] == Outside) ==> !r.menuOn && r.overflow == ""
    decreases |ts|
  {
    if |ts| == 0 then s else Run(Click(s, ts[0]), ts[1..])
  }

  /** Toggling twice restores the classes, and restores the whole state when
      the overflow already followed the menu. */
  lemma ToggleTwiceRestores(s: Nav)
    ensures ToggleMenu(ToggleMenu(s)).toggleOn == s.toggleOn
    ensures ToggleMenu(ToggleMenu(s)).menuOn == s.menuOn
    ensures s.overflow == (if s.menuOn then Hidden else "") ==> ToggleMenu(ToggleMenu(s)) == s
  {
  }

  /** Each toggle flips its own element: a toggle button and menu that start
      out of step stay out of step. */
  lemma ToggleKeepsMismatch(s: Nav)
    requires s.toggleOn != s.menuOn
    ensures ToggleMenu(s).toggleOn != ToggleMenu(s).menuOn
  {
  }

  lemma ClickKeepsSynced(s: Nav, t: Target)
    requires Synced(s)
    ensures Synced(Click(s, t))
  {
  }

  /** The page as it loads is in agreement. */
  lemma InitialSynced()
    ensures Synced(Initial)
  {
  }

  /** From any state in agreement, the loaded page among them, every sequence
      of clicks keeps toggle, menu and body overflow in agreement. */
  lemma {:induction false} RunKeepsSynced(s: Nav, ts: seq<Target>)
    requires Synced(s)
    ensures Synced(Run(s, ts))
    decreases |ts|
  {
    if |ts| > 0 {
      ClickKeepsSynced(s, ts[0]);
      RunKeepsSynced(Click(s, ts[0]), ts[1..]);
    }
  }

  /** Whatever came before, a click on a link or outside the menu ends with
      the menu closed and scrolling unlocked. */
  lemma {:induction false} EndsClosed(s: Nav, ts: seq<Target>, last: Target)
    requires last == NavLink || last == Outside
    ensures Run(s, ts + [last]) == Nav(false, false, "")
    decreases |ts|
  {
    if |ts| == 0 {
      assert ts + [last] == [last];
    } else {
      assert (ts + [last])[1..] == ts[1..] + [last];
      EndsClosed(Click(s, ts[0]), ts[1..], last);
    }
  }
}

=== FILE: optional.dfy ===
/** A value that may be absent: a JavaScript `undefined`/`null`, or a
    variable that has not been assigned yet. */
module Optional {

  datatype Option<+T> = None | Some(value: T)
}

=== FILE: particles.dfy ===
/** The mouse trail of `initInteractiveParticles`: every particle is appended
    to the page and to the array `particles`; once the array holds more than
    `maxParticles` entries, the oldest is shifted out and taken off the page.
    A particle also takes itself off the page when its fade-out animation
    completes, but stays in the array.

    Particles are named by the order of their creation (0, 1, 2, ...). The
    position, the random drift, the 30% spawn chance and the 50 ms throttle
    are not modelled: a spawn is simply an event. */
module ParticleTrail {
  import opened Arith

  const MaxParticles: nat := 15

  datatype Trail = Trail(
    buffer: seq<nat>,   // the array `particles`, oldest first
    onPage: set<nat>,   // particles attached to the document
    nextId: nat)        // particles created so far

  const Empty := Trail([], {}, 0)

  /** `createParticle`: push the new particle, then shift the head once the
      array is over the bound and remove it from the page. The array keeps
      the newest particles of the old array followed by the new one. */
  function CreateParticle(t: Trail): (r: Trail)
    ensures r.nextId == t.nextId + 1
    ensures |t.buffer| <= MaxParticles ==> |r.buffer| == Min(|t.buffer| + 1, MaxParticles)
    ensures 1 <= |r.buffer| <= |t.buffer| + 1
    ensures r.buffer[|r.buffer| - 1] == t.nextId
    ensures r.buffer[..|r.buffer| - 1] == t.buffer[|t.buffer| + 1 - |r.buffer|..]
    // only the shifted-out head leaves the page
    ensures r.onPage == t.onPage + {t.nextId} - (if |t.buffer| >= MaxParticles then {t.buffer[0]} else {})
  {
    var id := t.nextId;
    var pushed := t.buffer + [id];
    var page := t.onPage + {id};
    if |pushed| > MaxParticles then
      assert pushed[0] == t.buffer[0];
      assert pushed[1..][..|pushed| - 2] == t.buffer[1..];
      Trail(pushed[1..], page - {pushed[0]}, id + 1)
    else
      Trail(pushed, page, id + 1)
  }

  /** The fade-out's `onComplete`: `particle.remove()`. */
  function FadeComplete(t: Trail, id: nat): (r: Trail)
    ensures id !in r.onPage
    ensures r.onPage == t.onPage - {id}
    ensures r.buffer == t.buffer && r.nextId == t.nextId
  {
    t.(onPage := t.onPage - {id})
  }

  datatype Event = Spawn | Faded(id: nat)

  function Step(t: Trail, e: Event): (r: Trail)
    ensures e.Spawn? ==> r.nextId == t.nextId + 1
    ensures e.Faded? ==> r.buffer == t.buffer && r.nextId == t.nextId
  {
    match e
    case Spawn => CreateParticle(t)
    case Faded(id) => FadeComplete(t, id)
  }

  function Run(t: Trail, es: seq<Event>): (r: Trail)
    ensures r.nextId >= t.nextId
    decreases |es|
  {
    if |es| == 0 then t else Run(Step(t, es[0]), es[1..])
  }

  /** The array holds exactly the `Min(nextId, MaxParticles)` most recently
      created particles, oldest first, and only particles of the array are
      on the page. */
  ghost predicate Inv(t: Trail)
  {
    && |t.buffer| == Min(t.nextId, MaxParticles)
    && (forall j :: 0 <= j < |t.buffer| ==> t.buffer[j] == t.nextId - |t.buffer| + j)
    && (forall x :: x in t.onPage ==> x in t.buffer)
  }

  lemma CreateKeepsInv(t: Trail)
    requires Inv(t)
    ensures Inv(CreateParticle(t))
  {
    CreateKeepsOrder(t);
    CreateKeepsPageInBuffer(t);
  }

  lemma CreateKeepsOrder(t: Trail)
    requires Inv(t)
    ensures var r := CreateParticle(t);
            forall j :: 0 <= j < |r.buffer| ==> r.buffer[j] == r.nextId - |r.buffer| + j
  {
    var r := CreateParticle(t);
    var init := r.buffer[..|r.buffer| - 1];
    forall j | 0 <= j < |r.buffer|
      ensures r.buffer[j] == r.nextId - |r.buffer| + j
    {
      if j < |r.buffer| - 1 {
        assert r.buffer[j] == init[j];
      }
    }
  }

  lemma CreateKeepsPageInBuffer(t: Trail)
    requires Inv(t)
    ensures var r := CreateParticle(t);
            forall x :: x in r.onPage ==> x in r.buffer
  {
    var r := CreateParticle(t);
    var init := r.buffer[..|r.buffer| - 1];
    forall x | x in r.onPage
      ensures x in r.buffer
    {
      if x != t.nextId {
        assert x in t.onPage;
        var j :| 0 <= j < |t.buffer| && t.buffer[j] == x;
        if |t.buffer| >= MaxParticles {
          assert init[j - 1] == x;
          assert r.buffer[j - 1] == x;
        } else {
          assert init[j] == x;
          assert r.buffer[j] == x;
        }
      }
    }
  }

  lemma {:induction false} RunKeepsInv(t: Trail, es: seq<Event>)
    requires Inv(t)
    ensures Inv(Run(t, es))
    decreases |es|
  {
    if |es| > 0 {
      if es[0].Spawn? {
        CreateKeepsInv(t);
      }
      RunKeepsInv(Step(t, es[0]), es[1..]);
    }
  }

  /** A set whose members all occur in a sequence is no larger than it. */
  lemma {:induction false} SubsetOfSeqIsSmaller(s: set<nat>, xs: seq<nat>)
    requires forall x :: x in s ==> x in xs
    ensures |s| <= |xs|
    decreases |xs|
  {
    if |xs| > 0 {
      var rest := s - {xs[0]};
      forall x | x in rest
        ensures x in xs[1..]
      {
        var j :| 0 <= j < |xs| && xs[j] == x;
        assert j != 0;
        assert xs[1..][j - 1] == x;
      }
      SubsetOfSeqIsSmaller(rest, xs[1..]);
    }
  }

  /** Whatever the interleaving of spawns and completed fade-outs, the page
      never holds more than `MaxParticles` trail particles, and the array
      never grows past the bound. */
  lemma TrailIsBounded(es: seq<Event>)
    ensures |Run(Empty, es).buffer| <= MaxParticles
    ensures |Run(Empty, es).onPage| <= MaxParticles
  {
    RunKeepsInv(Empty, es);
    var t := Run(Empty, es);
    SubsetOfSeqIsSmaller(t.onPage, t.buffer);
  }

  /** The particle shifted out is always the oldest one still in the array. */
  lemma EvictsOldest(t: Trail)
    requires Inv(t) && t.nextId >= MaxParticles
    ensures |t.buffer| == MaxParticles
    ensures CreateParticle(t).buffer == t.buffer[1..] + [t.nextId]
    ensures t.buffer[0] == t.nextId - MaxParticles
    ensures t.buffer[0] !in CreateParticle(t).buffer && t.buffer[0] !in CreateParticle(t).onPage
    ensures CreateParticle(t).onPage == t.onPage + {t.nextId} - {t.buffer[0]}
  {
  }
}

=== FILE: portfolio.dfy ===
/** The portfolio filter of `initPortfolioFilters`: clicking a filter button
    marks that button alone as active and shows each portfolio item at full
    opacity and scale when it passes the button's filter, dimmed otherwise.

    `data-filter` and `data-category` come from `getAttribute`, which yields
    `null` for a missing attribute; `None` stands for it. The tween itself is
    not modelled, only the target it is sent to. */
module PortfolioFilter {
  import opened Optional
  import opened Flags

  const All := "all"

  /** Tween targets: `opacity: 1, scale: 1` and `opacity: 0.3, scale: 0.8`. */
  datatype Look = Full | Dimmed

  datatype Gallery = Gallery(
    filters: seq<Option<string>>,     // data-filter of each .filter-btn
    active: seq<bool>,                // `active` class of each button
    categories: seq<Option<string>>,  // data-category of each .portfolio-item
    looks: seq<Look>)                 // last tween target of each item

  ghost predicate WellFormed(g: Gallery)
  {
    |g.active| == |g.filters| && |g.looks| == |g.categories|
  }

  /** `filter === 'all' || category === filter`. Strict equality of two
      `null`s holds, so a button without `data-filter` passes the items
      without `data-category`. */
  predicate Passes(filter: Option<string>, category: Option<string>)
  {
    filter == Some(All) || category == filter
  }

  /** The items a filter lets through, by index. */
  function Selected(filter: Option<string>, categories: seq<Option<string>>): (r: seq<Look>)
    ensures |r| == |categories|
    ensures forall i :: 0 <= i < |categories| ==> (r[i] == Full <==> Passes(filter, categories[i]))
  {
    if |categories| == 0 then []
    else
      var last := categories[|categories| - 1];
      Selected(filter, categories[..|categories| - 1]) + [if Passes(filter, last) then Full else Dimmed]
  }

  /** A click on the button at index `b`. */
  function Click(g: Gallery, b: nat): (r: Gallery)
    requires WellFormed(g) && b < |g.filters|
    ensures WellFormed(r)
    ensures r.filters == g.filters && r.categories == g.categories
    ensures OnlyActive(r.active, b) && r.active[b]
    ensures forall i :: 0 <= i < |r.looks| ==>
              (r.looks[i] == Full <==> g.filters[b] == Some(All) || g.categories[i] == g.filters[b])
  {
    g.(active := Mark(g.active, b), looks := Selected(g.filters[b], g.categories))
  }

  /** The button "all" shows every item. */
  lemma AllShowsEverything(g: Gallery, b: nat)
    requires WellFormed(g) && b < |g.filters| && g.filters[b] == Some(All)
    ensures forall i :: 0 <= i < |g.categories| ==> Click(g, b).looks[i] == Full
  {
  }

  /** Any other button shows exactly the items of its own category: the set
      of items at full opacity is the set of items whose category it names. */
  lemma CategoryShowsItsItems(g: Gallery, b: nat)
    requires WellFormed(g) && b < |g.filters| && g.filters[b] != Some(All)
    ensures var r := Click(g, b);
            (set i | 0 <= i < |r.looks| && r.looks[i] == Full)
            == (set i | 0 <= i < |g.categories| && g.categories[i] == g.filters[b])
  {
  }

  /** A button with no `data-filter` shows exactly the items with no
      `data-category`. */
  lemma MissingFilterMatchesMissingCategory(g: Gallery, b: nat)
    requires WellFormed(g) && b < |g.filters| && g.filters[b] == None
    ensures forall i :: 0 <= i < |g.categories| ==>
              (Click(g, b).looks[i] == Full <==> g.categories[i] == None)
  {
  }

  /** The page after a click depends only on the button clicked: earlier
      clicks leave no trace, and clicking the same button again changes
      nothing. */
  lemma LastClickWins(g: Gallery, a: nat, b: nat)
    requires WellFormed(g) && a < |g.filters| && b < |g.filters|
    ensures Click(Click(g, a), b) == Click(g, b)
    ensures Click(Click(g, b), b) == Click(g, b)
  {
  }
}

=== FILE: slider.dfy ===
/** The testimonial carousel of `initTestimonialSlider`: a slide index over a
    fixed list of slides and dots, and the autoplay timers that advance it.

    Timers are abstract. `setInterval` hands out a fresh handle, which stays in
    `live` until `clearInterval` is called on it; the carousel itself remembers
    one handle only (`stored`, the variable `autoPlayInterval`). Each
    `setTimeout(startAutoPlay, 3000)` adds one pending restart. Durations and
    the animation library calls are not modelled. */
module TestimonialSlider {
  import opened Optional
  import opened Arith
  import opened Flags

  /** Index arithmetic of `nextSlide`: `(currentSlide + 1) % slides.length`. */
  function NextIndex(i: nat, n: nat): (r: nat)
    requires n >= 1
    ensures r < n
    ensures i < n ==> r == (if i == n - 1 then 0 else i + 1)
  {
    JsRem(i + 1, n)
  }

  /** Index arithmetic of `prevSlide`: `(currentSlide - 1 + slides.length) % slides.length`. */
  function PrevIndex(i: nat, n: nat): (r: nat)
    requires n >= 1
    ensures r < n
    ensures i < n ==> r == (if i == 0 then n - 1 else i - 1)
  {
    JsRem(i - 1 + n, n)
  }

  lemma PrevUndoesNext(i: nat, n: nat)
    requires 1 <= n && i < n
    ensures PrevIndex(NextIndex(i, n), n) == i
  {
  }

  lemma NextUndoesPrev(i: nat, n: nat)
    requires 1 <= n && i < n
    ensures NextIndex(PrevIndex(i, n), n) == i
  {
  }

  /** The index reached from `i` by `k` calls of `nextSlide`. */
  function Advance(i: nat, n: nat, k: nat): (r: nat)
    requires n >= 1
    ensures k > 0 ==> r < n
  {
    if k == 0 then i else NextIndex(Advance(i, n, k - 1), n)
  }

  /** Stepping a remainder by one: the successor wraps to 0 exactly at `n - 1`. */
  lemma SuccessorRemainder(m: nat, n: nat)
    requires n >= 1
    ensures (m + 1) % n == (if m % n == n - 1 then 0 else m % n + 1)
  {
    var q := m / n;
    var r := m % n;
    assert m == q * n + r;
    if r == n - 1 {
      assert m + 1 == (q + 1) * n + 0;
      ModUnique(m + 1, q + 1, 0, n);
    } else {
      assert m + 1 == q * n + (r + 1);
      ModUnique(m + 1, q, r + 1, n);
    }
  }

  /** `k` calls of `nextSlide` move the index `k` places round the cycle. */
  lemma {:induction false} AdvanceIsRotation(i: nat, n: nat, k: nat)
    requires 1 <= n && i < n
    ensures Advance(i, n, k) == (i + k) % n
  {
    if k == 0 {
      ModUnique(i, 0, i, n);
    } else {
      AdvanceIsRotation(i, n, k - 1);
      SuccessorRemainder(i + k - 1, n);
    }
  }

  /** `n` calls of `nextSlide` over `n` slides come back to the start. */
  lemma AdvanceFullCycle(i: nat, n: nat)
    requires 1 <= n && i < n
    ensures Advance(i, n, n) == i
  {
    AdvanceIsRotation(i, n, n);
    ModUnique(i + n, 1, i, n);
  }

  /** What `showSlide(index)` leaves on the page. It first removes `active`
      from every slide and every dot; `slides[index]` or `dots[index]` being
      undefined then throws a TypeError, which `completed == false` records. */
  datatype Shown = Shown(slides: seq<bool>, dots: seq<bool>, completed: bool)

  function ShowSlide(slides: seq<bool>, dots: seq<bool>, index: nat): (r: Shown)
    ensures |r.slides| == |slides| && |r.dots| == |dots|
    ensures r.completed <==> index < |slides| && index < |dots|
    ensures index < |slides| ==> OnlyActive(r.slides, index) && OnlyActive(r.dots, index)
    ensures index >= |slides| ==> NoneActive(r.slides) && NoneActive(r.dots)
  {
    if index >= |slides| then
      Shown(Cleared(slides), Cleared(dots), false)
    else if index >= |dots| then
      Shown(Mark(slides, index), Cleared(dots), false)
    else
      Shown(Mark(slides, index), Mark(dots, index), true)
  }

  /** With at least as many dots as slides, `showSlide` of an existing slide
      activates exactly that slide and exactly that dot. */
  lemma ShowSlideActivatesOne(slides: seq<bool>, dots: seq<bool>, index: nat)
    requires index < |slides| <= |dots|
    ensures ShowSlide(slides, dots, index).completed
    ensures OnlyActive(ShowSlide(slides, dots, index).slides, index)
    ensures OnlyActive(ShowSlide(slides, dots, index).dots, index)
    ensures ShowSlide(slides, dots, index).dots[index]
  {
  }

  datatype Slider = Slider(
    current: nat,            // currentSlide
    slides: seq<bool>,       // `active` class of each testimonial slide
    dots: seq<bool>,         // `active` class of each dot
    live: set<nat>,          // intervals that have been set and not cleared
    stored: Option<nat>,     // autoPlayInterval
    nextHandle: nat,         // the handle the next setInterval returns
    pendingRestarts: nat,    // setTimeout(startAutoPlay, 3000) not yet fired
    hoverWired: bool)        // mouseenter/mouseleave listeners are attached

  /** Handles are handed out in increasing order, so every handle the
      carousel knows of is below `nextHandle`. */
  ghost predicate Valid(s: Slider)
  {
    && |s.slides| >= 1
    && (forall h :: h in s.live ==> h < s.nextHandle)
    && (s.stored.Some? ==> s.stored.value < s.nextHandle)
  }

  /** The page shows the current slide: its slide and its dot are the only
      active ones. */
  ghost predicate Displayed(s: Slider)
  {
    s.current < |s.slides| && OnlyActive(s.slides, s.current) && OnlyActive(s.dots, s.current)
  }

  /** `startAutoPlay`: set a new interval and overwrite the stored handle. The
      interval the old handle named is NOT cleared. */
  function StartAutoPlay(s: Slider): (r: Slider)
    requires Valid(s)
    ensures Valid(r)
    ensures s.nextHandle !in s.live && r.live == s.live + {s.nextHandle}
    ensures r.stored == Some(s.nextHandle)
    ensures s.stored.Some? && s.stored.value in s.live ==> s.stored.value in r.live
    ensures r.current == s.current && r.slides == s.slides && r.dots == s.dots
    ensures r.pendingRestarts == s.pendingRestarts && r.hoverWired == s.hoverWired
  {
    s.(live := s.live + {s.nextHandle}, stored := Some(s.nextHandle), nextHandle := s.nextHandle + 1)
  }

  /** `stopAutoPlay`: clear the stored handle, and only it. Clearing a handle
      that was never set, or already cleared, does nothing. */
  function StopAutoPlay(s: Slider): (r: Slider)
    requires Valid(s)
    ensures Valid(r)
    ensures forall h :: h in r.live <==> h in s.live && s.stored != Some(h)
    ensures r.stored == s.stored && r.nextHandle == s.nextHandle
    ensures r.current == s.current && r.slides == s.slides && r.dots == s.dots
    ensures r.pendingRestarts == s.pendingRestarts && r.hoverWired == s.hoverWired
  {
    match s.stored
    case None => s
    case Some(h) => s.(live := s.live - {h})
  }

  /** `currentSlide = index; showSlide(currentSlide)`, without timer effects. */
  function Show(s: Slider, index: nat): (r: Slider)
    requires Valid(s)
    ensures Valid(r)
    ensures r.current == index
    ensures |r.slides| == |s.slides| && |r.dots| == |s.dots|
    ensures index < |s.slides| ==> Displayed(r)
    ensures index >= |s.slides| ==> NoneActive(r.slides) && NoneActive(r.dots)
    ensures r.live == s.live && r.stored == s.stored && r.nextHandle == s.nextHandle
    ensures r.pendingRestarts == s.pendingRestarts && r.hoverWired == s.hoverWired
  {
    var shown := ShowSlide(s.slides, s.dots, index);
    s.(current := index, slides := shown.slides, dots := shown.dots)
  }

  /** A click on the next or previous button or on a dot: move to `index`,
      then `stopAutoPlay()` and `setTimeout(startAutoPlay, 3000)`. When
      `showSlide` throws, the two timer calls are never reached. */
  function ManualMove(s: Slider, index: nat): (r: Slider)
    requires Valid(s)
    ensures Valid(r)
    ensures r.current == index
    ensures |r.slides| == |s.slides| && |r.dots| == |s.dots|
    ensures index < |s.slides| ==> Displayed(r)
    ensures index >= |s.slides| ==> NoneActive(r.slides) && NoneActive(r.dots)
    ensures index < |s.slides| && index < |s.dots| ==>
              && r.pendingRestarts == s.pendingRestarts + 1
              && (forall h :: h in r.live <==> h in s.live && s.stored != Some(h))
    ensures !(index < |s.slides| && index < |s.dots|) ==>
              r.pendingRestarts == s.pendingRestarts && r.live == s.live
    ensures r.stored == s.stored && r.nextHandle == s.nextHandle && r.hoverWired == s.hoverWired
  {
    var t := Show(s, index);
    if ShowSlide(s.slides, s.dots, index).completed then
      var u := StopAutoPlay(t);
      u.(pendingRestarts := u.pendingRestarts + 1)
    else
      t
  }

  /** `initTestimonialSlider` on a page with the given slides and dots (their
      `active` classes as found). No slides: the function returns at once and
      there is no carousel. Otherwise `showSlide(0)`, then `startAutoPlay()`,
      then the hover listeners when the container exists; an exception from
      `showSlide(0)` (no dots) ends initialisation before the timer starts. */
  function Init(slides: seq<bool>, dots: seq<bool>, hasContainer: bool): (r: Option<Slider>)
    ensures r.None? <==> |slides| == 0
    ensures r.Some? ==> Valid(r.value) && r.value.current == 0 && r.value.pendingRestarts == 0
    ensures r.Some? ==> |r.value.slides| == |slides| && |r.value.dots| == |dots|
    ensures r.Some? ==> OnlyActive(r.value.slides, 0)
    ensures r.Some? && |dots| >= 1 ==>
              Displayed(r.value) && r.value.live == {0} && r.value.stored == Some(0)
              && r.value.hoverWired == hasContainer
    ensures r.Some? && |dots| == 0 ==>
              r.value.live == {} && r.value.stored == None && !r.value.hoverWired
  {
    if |slides| == 0 then None
    else
      var shown := ShowSlide(slides, dots, 0);
      var s := Slider(0, shown.slides, shown.dots, {}, None, 0, 0, false);
      if !shown.completed then Some(s)
      else Some(StartAutoPlay(s).(hoverWired := hasContainer))
  }

  datatype Event =
    | NextClick               // click on #testimonial-next
    | PrevClick               // click on #testimonial-prev
    | DotClick(k: nat)        // click on the k-th dot
    | IntervalFires(h: nat)   // the interval with handle h calls nextSlide
    | RestartFires            // one pending setTimeout(startAutoPlay, 3000) fires
    | MouseEnter              // pointer enters .testimonials-container
    | MouseLeave              // pointer leaves .testimonials-container

  /** One event. An event with no listener or no timer behind it (a dot that
      does not exist, a cleared interval, a hover without listeners) changes
      nothing. An interval that fires calls `nextSlide` only: the interval
      keeps running even when `showSlide` throws. */
  function Step(s: Slider, e: Event): (r: Slider)
    requires Valid(s)
    ensures Valid(r)
    ensures |r.slides| == |s.slides| && |r.dots| == |s.dots| && r.hoverWired == s.hoverWired
    ensures r.nextHandle >= s.nextHandle
    // at most one new interval per event, and it is the stored one
    ensures forall h :: h in r.live ==> h in s.live || r.stored == Some(h)
    // an interval whose handle is no longer stored is never cleared again
    ensures forall h :: h in s.live && s.stored != Some(h) ==> h in r.live && r.stored != Some(h)
    // where each event moves the carousel
    ensures e == NextClick ==> r.current == NextIndex(s.current, |s.slides|)
    ensures e == PrevClick ==> r.current == PrevIndex(s.current, |s.slides|)
    ensures e.DotClick? && e.k < |s.dots| ==> r.current == e.k
    ensures e.IntervalFires? && e.h in s.live ==> r.current == NextIndex(s.current, |s.slides|)
    ensures e.RestartFires? || e.MouseEnter? || e.MouseLeave? ==>
              r.current == s.current && r.slides == s.slides && r.dots == s.dots
    // which timer calls each event makes: a click that shows its slide stops
    // autoplay and schedules one restart, a throwing click neither
    ensures (e == NextClick || e == PrevClick || (e.DotClick? && e.k < |s.dots|)) ==>
              if r.current < |s.slides| && r.current < |s.dots| then
                && r.pendingRestarts == s.pendingRestarts + 1
                && (forall h :: h in r.live <==> h in s.live && s.stored != Some(h))
              else
                r.pendingRestarts == s.pendingRestarts && r.live == s.live
    // a restart fires once and starts a fresh interval
    ensures e.RestartFires? && s.pendingRestarts > 0 ==>
              && r.pendingRestarts == s.pendingRestarts - 1
              && r.live == s.live + {s.nextHandle} && r.stored == Some(s.nextHandle)
    ensures e.MouseEnter? && s.hoverWired ==>
              forall h :: h in r.live <==> h in s.live && s.stored != Some(h)
    ensures e.MouseLeave? && s.hoverWired ==>
              r.live == s.live + {s.nextHandle} && r.stored == Some(s.nextHandle)
    // no pending restart, or no hover listeners: nothing happens
    ensures ((e.RestartFires? && s.pendingRestarts == 0)
             || ((e.MouseEnter? || e.MouseLeave?) && !s.hoverWired)) ==> r == s
  {
    var n := |s.slides|;
    match e
    case NextClick => ManualMove(s, NextIndex(s.current, n))
    case PrevClick => ManualMove(s, PrevIndex(s.current, n))
    case DotClick(k) => if k < |s.dots| then ManualMove(s, k) else s
    case IntervalFires(h) => if h in s.live then Show(s, NextIndex(s.current, n)) else s
    case RestartFires =>
      if s.pendingRestarts > 0 then StartAutoPlay(s.(pendingRestarts := s.pendingRestarts - 1)) else s
    case MouseEnter => if s.hoverWired then StopAutoPlay(s) else s
    case MouseLeave => if s.hoverWired then StartAutoPlay(s) else s
  }

  function Run(s: Slider, es: seq<Event>): (r: Slider)
    requires Valid(s)
    ensures Valid(r)
    ensures |r.slides| == |s.slides| && |r.dots| == |s.dots|
    decreases |es|
  {
    if |es| == 0 then s else Run(Step(s, es[0]), es[1..])
  }

  /** With no more dots than slides, the index never leaves `[0, n)`. */
  lemma StepKeepsIndexInRange(s: Slider, e: Event)
    requires Valid(s) && |s.dots| <= |s.slides| && s.current < |s.slides|
    ensures Step(s, e).current < |s.slides|
  {
  }

  /** With one dot per slide, every event leaves exactly the current slide
      and the current dot active. */
  lemma StepKeepsDisplay(s: Slider, e: Event)
    requires Valid(s) && |s.dots| == |s.slides| && Displayed(s)
    ensures Displayed(Step(s, e))
  {
  }

  lemma {:induction false} RunKeepsDisplay(s: Slider, es: seq<Event>)
    requires Valid(s) && |s.dots| == |s.slides| && Displayed(s)
    ensures Displayed(Run(s, es))
    decreases |es|
  {
    if |es| > 0 {
      StepKeepsDisplay(s, es[0]);
      RunKeepsDisplay(Step(s, es[0]), es[1..]);
    }
  }

  /** Two starts and one stop leave the first interval running, and nothing
      the carousel can do will clear it afterwards. */
  lemma TwoStartsOneStopOrphans(s: Slider)
    requires Valid(s)
    ensures var t := StopAutoPlay(StartAutoPlay(StartAutoPlay(s)));
            && s.nextHandle in t.live
            && s.nextHandle + 1 !in t.live
            && t.stored == Some(s.nextHandle + 1)
            && t.live == s.live + {s.nextHandle}
  {
  }

  /** An orphaned interval stays live through any sequence of events. */
  lemma {:induction false} OrphanLivesForever(s: Slider, es: seq<Event>, h: nat)
    requires Valid(s) && h in s.live && s.stored != Some(h)
    ensures h in Run(s, es).live
    decreases |es|
  {
    if |es| > 0 {
      OrphanLivesForever(Step(s, es[0]), es[1..], h);
    }
  }

  /** Two quick clicks on "next" schedule two restarts; when both fire, two
      intervals advance the carousel, and one of them can never be stopped. */
  lemma DoubleClickRunsTwoIntervals(slides: seq<bool>, dots: seq<bool>, hasContainer: bool)
    requires 1 <= |slides| <= |dots|
    ensures var s := Init(slides, dots, hasContainer).value;
            var t := Run(s, [NextClick, NextClick, RestartFires, RestartFires]);
            && t.live == {1, 2}
            && t.stored == Some(2)
            && Run(t, [MouseEnter, MouseEnter]).live == (if hasContainer then {1} else {1, 2})
  {
  }

  /** A `mouseleave` while autoplay runs starts a second interval over the
      first: the old one stays live but is no longer stored. */
  lemma MouseLeaveOrphans(s: Slider, h: nat)
    requires Valid(s) && s.hoverWired && s.stored == Some(h) && h in s.live
    ensures var t := Step(s, MouseLeave);
            && h in t.live && t.stored != Some(h)
            && |t.live| == |s.live| + 1
  {
  }

  /** Hovering does not keep the carousel paused: a dot click while the
      pointer is inside schedules a restart, which starts autoplay again
      although no `mouseleave` has happened. */
  lemma ClickWhileHoveredResumesAutoPlay(slides: seq<bool>, dots: seq<bool>)
    requires 1 <= |slides| <= |dots|
    ensures var s := Init(slides, dots, true).value;
            && Run(s, [MouseEnter]).live == {}
            && Run(s, [MouseEnter, DotClick(0), RestartFires]).live == {1}
  {
  }
}

=== FILE: typewriter.dfy ===
/** The typewriter of `initTypewriter(element, text)`: the element is emptied
    and given a cursor border, then `typeChar` appends one character of
    `text` per call and schedules the next call, until the text is used up;
    the call after that schedules the removal of the cursor instead.

    Time is abstract: `Tick` is the next scheduled `typeChar` firing and
    `CursorTimeout` the delayed cursor removal. `charAt` is read as indexing
    the string as a sequence of characters. */
module Typewriter {
  import opened Arith

  /** What is scheduled next. */
  datatype Phase = Typing | CursorPending | Done

  datatype Writer = Writer(text: string, i: nat, shown: string, cursor: bool, phase: Phase)

  /** The element shows the first `i` characters of the text. */
  ghost predicate Inv(w: Writer)
  {
    && w.i <= |w.text|
    && w.shown == w.text[..w.i]
    && (w.phase != Typing ==> w.i == |w.text|)
    && (w.phase == Done <==> !w.cursor)
  }

  /** `typeChar`, run when the previous call (or `initTypewriter`) scheduled it. */
  function TypeChar(w: Writer): (r: Writer)
    requires Inv(w) && w.phase == Typing
    ensures Inv(r)
    ensures r.text == w.text
    ensures w.i < |w.text| ==> r.i == w.i + 1 && r.phase == Typing
    ensures w.i == |w.text| ==> r.shown == w.shown && r.phase == CursorPending
  {
    if w.i < |w.text| then
      assert w.text[..w.i + 1] == w.text[..w.i] + [w.text[w.i]];
      w.(shown := w.shown + [w.text[w.i]], i := w.i + 1, phase := Typing)
    else
      w.(phase := CursorPending)
  }

  /** The element as `initTypewriter` leaves it: empty, with the cursor, and
      the first `typeChar` already run. */
  function Start(text: string): (r: Writer)
    ensures Inv(r) && r.text == text
    ensures |text| > 0 ==> r.i == 1 && r.phase == Typing
    ensures |text| == 0 ==> r.phase == CursorPending
  {
    TypeChar(Writer(text, 0, "", true, Typing))
  }

  /** The scheduled `typeChar` fires. Once typing is over nothing is
      scheduled, so nothing fires. */
  function Tick(w: Writer): (r: Writer)
    requires Inv(w)
    ensures Inv(r)
    ensures w.phase != Typing ==> r == w
    ensures w.phase == Typing ==> r.text == w.text && r.i == Min(w.i + 1, |w.text|)
    ensures w.phase == Typing ==> (r.phase == Typing <==> w.i < |w.text|)
  {
    if w.phase == Typing then TypeChar(w) else w
  }

  /** The delayed `element.style.borderRight = 'none'`. */
  function CursorTimeout(w: Writer): (r: Writer)
    requires Inv(w)
    ensures Inv(r)
    ensures w.phase == CursorPending ==> !r.cursor && r.phase == Done
    ensures w.phase != CursorPending ==> r == w
    ensures r.shown == w.shown
  {
    if w.phase == CursorPending then w.(cursor := false, phase := Done) else w
  }

  function Ticks(w: Writer, k: nat): (r: Writer)
    requires Inv(w)
    ensures Inv(r)
    decreases k
  {
    if k == 0 then w else Ticks(Tick(w), k - 1)
  }

  /** After `k` ticks the element shows the first `k + 1` characters (the
      first comes from the call in `initTypewriter`), capped at the whole
      text; characters are still being scheduled exactly while fewer than
      `|text|` ticks have passed. */
  lemma {:induction false} TicksTypePrefix(text: string, k: nat)
    ensures var w := Ticks(Start(text), k);
            && w.shown == text[..Min(k + 1, |text|)]
            && (w.phase == Typing <==> k < |text|)
  {
    TicksFrom(Start(text), k);
  }

  lemma {:induction false} TicksFrom(w: Writer, k: nat)
    requires Inv(w)
    ensures var r := Ticks(w, k);
            && r.text == w.text
            && (w.phase == Typing ==> r.i == Min(w.i + k, |w.text|)
                                       && (r.phase == Typing <==> w.i + k <= |w.text|))
            && (w.phase != Typing ==> r == w)
    decreases k
  {
    if k > 0 {
      TicksFrom(Tick(w), k - 1);
    }
  }

  /** Once the whole text is shown the text never changes again, whatever
      fires. */
  lemma {:induction false} FinishedTextIsStable(w: Writer, k: nat)
    requires Inv(w) && w.phase != Typing
    ensures Ticks(w, k) == w
    ensures CursorTimeout(Ticks(w, k)).shown == w.text
  {
    TicksFrom(w, k);
  }
}
